=== FILE: README.md ===
# Othello engine model

A Dafny model of the Othello engine in `go/othello.go`: the board value, the
capture-ray rules, the enumeration of legal moves, move execution (placement
and pass), and the three one-ply heuristics that `Evaluate` dispatches to.

The Go code mutates a `Board` through `*Board` receivers. The model treats the board
as an immutable value: an 8x8 `seq<seq<Piece>>` plus `next`, the colour that
must play next. Every operation is a pure function, except the heuristics.
Those are methods whose loops mirror the Go scans.

| file | module | models |
|---|---|---|
| `pieces.dfy` | `Pieces` | `Piece` (an 8-bit integer), `Empty`/`Black`/`White`, `Opposite` |
| `geometry.dfy` | `Geometry` | `Position`, `Valid`/`Pass`, the eight directions in `dirs` order, `translate`, row-major cell order |
| `board.dfy` | `Boards` | `Board`, `Move`, `Get` (storage `[y-1][x-1]`), and the writes `realMove` performs |
| `captures.dfy` | `Captures` | `findCaptures` (as `Walk`/`FindCaptures`), `tryMove`, and its errors |
| `moves.dfy` | `Moves` | `ValidMoves`, `realMove`, `Exec` |
| `heuristics.dfy` | `Heuristics` | `EvaluateFromValidMoves`, `EvaluateFromBoadStatus`, `EvaluateFromCaptures`, `Evaluate` |

Design points:

- **Reference definition for rays.** `Captures.Brackets(b, player, p, d, n)` is an independent definition of a bracketed run. It says the `n` cells after `p` along `d` are on the board and capturable, and the next cell is on the board and holds `player`. The recursive walk is proved equal to it.
- **Capturable cells.** `findCaptures` switches on the cell: first `m.As`, then `Empty`, and anything else is captured. So a capturable cell is any value that is neither Empty nor the mover's piece. That includes values other than 0, 1 and 2, which an `int8` can hold.
- **Heuristics.** Each heuristic is a strict-comparison scan with a seeded running best. The scan is modelled once, as `ScanForMin` and `ScanForMax`, over a sequence of scores. The scores themselves are defined elementwise: `MobilityScores`, `WeightScores` and `CaptureScores`.
- **Specifying the pick.** `PicksFirstMin` and `PicksFirstMax` state which move such a scan returns:
  - the first move of extreme score, when some score beats the seed;
  - otherwise the zero move `NoMove`.
- **Piece count.** `Evaluate` takes the piece count as a parameter (see "Left out").

Behaviour of the code worth knowing, which the model reproduces:

- **Mobility heuristic.** `EvaluateFromValidMoves` counts the mover's own follow-up placements, not the opponent's. It copies the board and calls `realMove`, which leaves `Next` unchanged, and then calls `ValidMoves` on the copy (go/othello.go:294-296; `Heuristics.MobilityCountsMoversMoves`).
- **Captured pieces.** A ray captures any piece that is neither Empty nor `m.As`, not only the other player's colour (go/othello.go:198-203).
- **Return type of the positional heuristic.** `EvaluateFromBoadStatus` is declared to return `[]Move` but returns a single `Move` (go/othello.go:269 and :287). `Evaluate` returns its result as a `Move` (go/othello.go:263). The file therefore does not compile as written. `Heuristics.EvaluateFromBoardStatus` models the body, which returns one `Move`.

## Model

| member | source | states |
|---|---|---|
| Pieces.Opposite | go/othello.go:70-79 | the opposite of a player is the other player and never itself; every value that is not a player maps to Empty (the involution is Pieces.OppositeSwapsPlayers) |
| Pieces.OppositeSwapsPlayers | go/othello.go:70-79 | applying Opposite twice gives back Black or White, and gives Empty for every other value |
| Geometry.Position.Valid | go/othello.go:92-101 | a position is on the board exactly when both coordinates lie in 1..8; Pass is its negation, so (0,0) and every other off-board pair mean a pass |
| Geometry.Translate | go/othello.go:186-188 | one step from a position along a direction; Geometry.StepShift relates it to the i-step position Step used by the ray lemmas |
| Geometry.DirsAreTheNeighbours | go/othello.go:155-166 | the direction table Dirs holds exactly the offsets with both components in -1..1 other than (0,0), each once, in strictly increasing order of dx and then dy, so x is the outer loop; written out it is (-1,-1), (-1,0), (-1,1), (0,-1), (0,1), (1,-1), (1,0), (1,1) |
| Geometry.CellAtUnique | go/othello.go:210-212 | the y-outer, x-inner scan visits every on-board position exactly once, at rank (y-1)*8 + (x-1) |
| Boards.Get | go/othello.go:113-120 | reads the cell of position (x, y) at storage row y-1, column x-1; Boards.Set and Boards.Paint state that writes through the same address change only that cell |
| Boards.Set | go/othello.go:113-115 | writing through At changes the cell at storage row y-1, column x-1 and no other cell |
| Boards.Paint | go/othello.go:147-149 | after the write loop, every listed cell holds the written piece; every other cell and Next are unchanged |
| Captures.Walk | go/othello.go:190-206 | the loop of findCaptures as recursion on the distance to the edge, with the same branch order (edge, `m.As`, Empty, capture); Captures.WalkMeaning characterises it |
| Captures.WalkMeaning | go/othello.go:190-206 | the ray walk returns a run exactly when a bracketing run exists, and that run is the cells 1..n steps from the target; it reports nothing when the edge or an Empty cell comes first |
| Captures.FindCaptures | go/othello.go:190-206 | a ray's captures: the run Walk finds, or nothing; Captures.FindCapturesMeaning and Captures.FindCapturesExact characterise it |
| Captures.FindCapturesMeaning | go/othello.go:190-206 | a ray's captures are empty, or a contiguous on-board run starting one step from the target whose cells hold neither Empty nor the mover's piece, closed by the mover's piece |
| Captures.FindCapturesExact | go/othello.go:190-206 | a cell is captured along a ray exactly when it lies inside the bracketing run of that ray |
| Captures.ConcatMembers | go/othello.go:175-178 | the appended captures hold exactly the cells of the per-direction runs, and are empty exactly when every run is empty |
| Captures.TryMove | go/othello.go:170-184 | an occupied target is refused with an error naming the occupant; a placement on an empty cell is refused only with NothingCaptured; an accepted move captures at least one cell |
| Captures.TryMoveMeaning | go/othello.go:170-184 | tryMove fails if and only if the target is occupied or all eight rays capture nothing; on success its captures are exactly the rays' captures, each on the board, capturable and distinct from the target |
| Moves.AcceptedMembers | go/othello.go:212-216 | the scan keeps a candidate exactly when tryMove accepts it |
| Moves.AcceptedOrder | go/othello.go:210-216 | the scan keeps candidates in the order it visits them |
| Moves.ValidMoves | go/othello.go:208-220 | at most one move per cell, so at most 64; Moves.ValidMovesExact gives exactly which moves and in what order |
| Moves.ValidMovesExact | go/othello.go:208-220 | ValidMoves holds exactly the on-board placements by the colour to move that tryMove accepts, in strictly increasing row-major order |
| Moves.EmptyBoardHasNoMoves | go/othello.go:208-220 | a board with no pieces has no legal move, whoever is to play |
| Moves.NothingCapturesOnEmptyBoard | go/othello.go:170-184 | on a board with no pieces, every on-board placement is refused with NothingCaptured, since no ray meets a capturable cell |
| Moves.RealMove | go/othello.go:141-151 | realMove fails exactly when tryMove fails, with the same error, and never changes Next |
| Moves.RealMoveFrame | go/othello.go:141-151 | a successful realMove gives the mover's piece to the target and to exactly the captured cells; every other cell is unchanged |
| Moves.Exec | go/othello.go:124-138 | a successful Exec flips Next to its opposite; a pass is refused, with the list of available moves, if and only if ValidMoves is non-empty; an accepted pass changes no cell |
| Moves.ExecPlacement | go/othello.go:124-151 | a placement fails exactly when the target is occupied or no ray captures, with tryMove's error; on success exactly the captures and the target take the mover's piece |
| Moves.ValidMovesExecute | go/othello.go:124-220 | every move ValidMoves offers is accepted by Exec, flips exactly its captures to the colour to move, and passes the turn |
| Heuristics.After | go/othello.go:294-295 | trying a move on a copy of the board never changes Next, whether or not realMove accepts it |
| Heuristics.Mobility | go/othello.go:294-300 | a mobility count is at most 64, so it always beats the seed 100 |
| Heuristics.MobilityCountsMoversMoves | go/othello.go:294-296 | the mobility heuristic counts the legal placements of the mover's own colour on the board after the move |
| Heuristics.MobilityScores | go/othello.go:293-301 | one score per move (defined elementwise as the mobility after that move); the contract bounds every score to 0..64, below the seed 100 |
| Heuristics.Weight | go/othello.go:270-283 | every positional weight lies between -62 and 68, so it always beats the seed -100 |
| Heuristics.WeightSymmetry | go/othello.go:270-283 | the folded table lookup does not change under a mirror in either axis or under swapping x and y |
| Heuristics.WeightScores | go/othello.go:273-285 | one score per move (defined elementwise as the table weight of that target); the contract bounds every score to -62..68, above the seed -100 |
| Heuristics.CaptureCount | go/othello.go:309-311 | the number of cells tryMove captures, or 0 when it refuses the move; the count is positive exactly when tryMove accepts the move |
| Heuristics.CaptureScores | go/othello.go:309-314 | one score per move, never negative; a score is positive exactly when tryMove accepts that move, so the seed 0 is beaten only by a move that captures |
| Heuristics.ScanForMin | go/othello.go:290-304 | a strict-less-than scan seeded at `seed` returns the first move of least score when some score is below the seed, and the zero move otherwise |
| Heuristics.ScanForMax | go/othello.go:306-317 | a strict-greater-than scan seeded at `seed` returns the first move of greatest score when some score is above the seed, and the zero move otherwise |
| Heuristics.EvaluateFromValidMoves | go/othello.go:290-304 | returns the first move that leaves the fewest follow-up placements; a non-empty list always yields one of its moves |
| Heuristics.EvaluateFromBoardStatus | go/othello.go:269-288 | returns the first move of greatest positional weight; a non-empty list always yields one of its moves |
| Heuristics.EvaluateFromCaptures | go/othello.go:306-317 | returns the first move that captures the most pieces, or the zero move when none captures |
| Heuristics.CapturesPickALegalMove | go/othello.go:306-317 | given a non-empty list of legal moves, the capture heuristic returns one of them, since each captures at least one piece |
| Heuristics.Evaluate | go/othello.go:257-267 | below 30 pieces the mobility pick, from 30 to 54 the positional pick, from 55 on the capture pick |

## Left out

- HTTP handler, route registration, JSON decoding of `Game`, logging and reply formatting (go/othello.go:14-55): these are I/O. The model takes a board value instead.
- `GetGameCount` and `ScoreDifference` (go/othello.go:229-255) are not modelled.
  - They index `Pieces[x][y]` with x and y running 1..8, so index 8 is out of range (a runtime panic) and index 0 is never read.
  - They are also transposed relative to `At`.
  - `Heuristics.Evaluate` takes the piece count as a parameter instead.
- `NextBoard` (go/othello.go:222-227) is not modelled. Nothing calls it; it writes the transposed cell and captures nothing.
- The commented-out negamax sketch (go/othello.go:318-327) is incomplete and never runs.
- Error values: errors are the `MoveError` cases, carrying the data of each message. The text `fmt.Errorf` produces is not modelled.
- Aliasing: `Exec` and `realMove` mutate the board in place and return it. The model returns a new board value instead.
- Moves.Exec: a refused placement returns only the error. The source returns the unchanged board together with the error (go/othello.go:126-127); it returns `nil` only for a refused pass (go/othello.go:133) and from a failed `realMove` (go/othello.go:144). The board it returns with a refused placement is the caller's own, since nothing is written before `tryMove` succeeds, so `Result<Board>` does not carry it.
- Move lists passed to the heuristics must have on-board targets. Where the Go code would index the board or the table out of range and panic, the model requires valid targets instead.
- Heuristics.CapturesPickALegalMove: the legality of the listed moves is a precondition of this lemma, not of `EvaluateFromCaptures`. The source accepts any list of on-board moves, legal or not, and returns the zero move when no move captures.
- The opening position is not stated as a concrete lemma; `Moves.ValidMovesExact` characterises every board.

=== FILE: board.dfy ===
/** The 8x8 board, its cells and the move value (go/othello.go, types Board and Move). */
module Boards {
  import opened Pieces
  import opened Geometry

  /** Eight rows of eight cells; row r holds the cells with y == r + 1. */
  type Grid = g: seq<seq<Piece>> | |g| == 8 && forall r :: 0 <= r < |g| ==> |g[r]| == 8
    witness seq(8, _ => seq(8, _ => Empty))

  /** The pieces and the colour that must be played next. */
  datatype Board = Board(grid: Grid, next: Piece)

  /** A placement at `where` (off-board means a pass) by `player`. */
  datatype Move = Move(where: Position, player: Piece)

  /** The zero value of a move: a pass by Empty. */
  const NoMove: Move := Move(Position(0, 0), Empty)

  /** The cell at p: storage row y - 1, column x - 1. */
  function Get(b: Board, p: Position): Piece
    requires p.Valid()
  {
    b.grid[p.y - 1][p.x - 1]
  }

  /** Writes v at p and nothing else. */
  function Set(b: Board, p: Position, v: Piece): (r: Board)
    requires p.Valid()
    ensures r.next == b.next
    ensures Get(r, p) == v
    ensures forall q: Position :: q.Valid() && q != p ==> Get(r, q) == Get(b, q)
  {
    b.(grid := b.grid[p.y - 1 := b.grid[p.y - 1][p.x - 1 := v]])
  }

  /** Writes v at every position of ps. */
  function Paint(b: Board, ps: seq<Position>, v: Piece): (r: Board)
    requires forall q :: q in ps ==> q.Valid()
    ensures r.next == b.next
    ensures forall q: Position :: q.Valid() ==> Get(r, q) == if q in ps then v else Get(b, q)
    decreases |ps|
  {
    if ps == [] then b else Paint(Set(b, ps[0], v), ps[1..], v)
  }
}

=== FILE: captures.dfy ===
/** The capture-ray engine and the legality test of a placement
    (go/othello.go: dirs, translate, findCaptures, tryMove). */
module Captures {
  import opened Pieces
  import opened Geometry
  import opened Boards

  datatype Option<T> = None | Some(value: T)

  /** Why a move was refused. */
  datatype MoveError =
    | Occupied(move: Move, holder: Piece)
    | NothingCaptured(move: Move)
    | PassWithMovesAvailable(move: Move, available: seq<Move>)

  datatype Result<T> = Ok(value: T) | Err(error: MoveError)

  /** q holds a piece that `player` may capture: neither Empty nor its own. */
  predicate IsCapturable(b: Board, player: Piece, q: Position)
    requires q.Valid()
  {
    Get(b, q) != Empty && Get(b, q) != player
  }

  /** The n cells after p along d are on the board and capturable, and the
      cell after them is on the board and holds `player`'s piece. */
  predicate Brackets(b: Board, player: Piece, p: Position, d: Direction, n: nat) {
    (forall i :: 1 <= i <= n ==> Step(p, d, i).Valid() && IsCapturable(b, player, Step(p, d, i)))
    && Step(p, d, n + 1).Valid() && Get(b, Step(p, d, n + 1)) == player
  }

  /** A bracketing run, if there is one, has a single length. */
  lemma BracketsUnique(b: Board, player: Piece, p: Position, d: Direction)
    ensures forall n: nat, k: nat :: Brackets(b, player, p, d, n) && Brackets(b, player, p, d, k) ==> n == k
  {
  }

  /** Past a capturable first cell, a run from p is one longer than the run
      from that cell. */
  lemma {:induction false} BracketsShift(b: Board, player: Piece, p: Position, d: Direction)
    requires Translate(p, d).Valid() && IsCapturable(b, player, Translate(p, d))
    ensures forall n: nat :: Brackets(b, player, p, d, n + 1) <==> Brackets(b, player, Translate(p, d), d, n)
    ensures !Brackets(b, player, p, d, 0)
  {
    var q := Translate(p, d);
    StepShift(p, d, 0);
    forall n: nat
      ensures Brackets(b, player, p, d, n + 1) <==> Brackets(b, player, q, d, n)
    {
      forall i: int
        ensures Step(q, d, i) == Step(p, d, i + 1)
      {
        StepShift(p, d, i);
      }
      if Brackets(b, player, q, d, n) {
        forall i | 1 <= i <= n + 1
          ensures Step(p, d, i).Valid() && IsCapturable(b, player, Step(p, d, i))
        {
          if i > 1 {
            assert Step(p, d, i) == Step(q, d, i - 1);
          }
        }
      }
      if Brackets(b, player, p, d, n + 1) {
        forall i | 1 <= i <= n
          ensures Step(q, d, i).Valid() && IsCapturable(b, player, Step(q, d, i))
        {
          assert Step(q, d, i) == Step(p, d, i + 1);
        }
      }
    }
  }

  /** Walks from p along d: Some(run) when the capturable run is closed by
      `player`'s piece, None when the board edge or an Empty cell ends it. */
  function Walk(b: Board, player: Piece, p: Position, d: Direction): Option<seq<Position>>
    requires p.Valid() && IsDirection(d)
    decreases Span(p, d)
  {
    var q := Translate(p, d);
    if !q.Valid() then None
    else if Get(b, q) == player then Some([])
    else if Get(b, q) == Empty then None
    else
      SpanShrinks(p, d);
      match Walk(b, player, q, d)
      case None => None
      case Some(rest) => Some([q] + rest)
  }

  /** Walk finds exactly the bracketing run, or reports that none exists. */
  lemma {:induction false} WalkMeaning(b: Board, player: Piece, p: Position, d: Direction)
    requires p.Valid() && IsDirection(d)
    ensures var w := Walk(b, player, p, d);
      w.Some? ==> (Brackets(b, player, p, d, |w.value|)
        && forall i :: 0 <= i < |w.value| ==> w.value[i] == Step(p, d, i + 1))
    ensures Walk(b, player, p, d).None? ==> forall n: nat :: !Brackets(b, player, p, d, n)
    decreases Span(p, d)
  {
    var q := Translate(p, d);
    StepShift(p, d, 0);
    if !q.Valid() {
      forall n: nat ensures !Brackets(b, player, p, d, n) {
        if n > 0 {
          assert Step(p, d, 1) == q;
        }
      }
    } else if Get(b, q) == player {
    } else if Get(b, q) == Empty {
      forall n: nat ensures !Brackets(b, player, p, d, n) {
        if n > 0 {
          assert Step(p, d, 1) == q;
        }
      }
    } else {
      SpanShrinks(p, d);
      WalkMeaning(b, player, q, d);
      BracketsShift(b, player, p, d);
      var w := Walk(b, player, q, d);
      if w.Some? {
        var run := [q] + w.value;
        assert Walk(b, player, p, d) == Some(run);
        assert Brackets(b, player, p, d, |run|) by {
          assert Brackets(b, player, q, d, |w.value|);
        }
        forall i | 0 <= i < |run| ensures run[i] == Step(p, d, i + 1) {
          if i > 0 {
            assert run[i] == w.value[i - 1] == Step(q, d, i);
            StepShift(p, d, i);
          }
        }
      } else {
        forall n: nat ensures !Brackets(b, player, p, d, n) {
          if n > 0 {
            assert !Brackets(b, player, q, d, n - 1);
          }
        }
      }
    }
  }

  /** The pieces a placement captures along one direction: the run of
      capturable cells starting one step from the target, provided the
      next cell holds the mover's piece; otherwise nothing. */
  function FindCaptures(b: Board, m: Move, d: Direction): seq<Position>
    requires m.where.Valid() && IsDirection(d)
  {
    var w := Walk(b, m.player, m.where, d);
    if w.Some? then w.value else []
  }

  /** A ray's captures are empty, or a contiguous run starting one step
      from the target, of capturable cells, closed by the mover's piece;
      they are non-empty exactly when such a run exists. */
  lemma FindCapturesMeaning(b: Board, m: Move, d: Direction)
    requires m.where.Valid() && IsDirection(d)
    ensures var r := FindCaptures(b, m, d);
      && (r != [] ==> Brackets(b, m.player, m.where, d, |r|))
      && (forall i :: 0 <= i < |r| ==> r[i] == Step(m.where, d, i + 1))
      && (forall q :: q in r ==> q.Valid() && IsCapturable(b, m.player, q))
      && (r != [] <==> exists n: nat :: n > 0 && Brackets(b, m.player, m.where, d, n))
  {
    WalkMeaning(b, m.player, m.where, d);
    BracketsUnique(b, m.player, m.where, d);
  }

  /** Membership in a ray's captures is exactly "lies inside a bracketing run". */
  lemma FindCapturesExact(b: Board, m: Move, d: Direction, q: Position)
    requires m.where.Valid() && IsDirection(d)
    ensures q in FindCaptures(b, m, d) <==>
      exists n: nat, i :: 1 <= i <= n && Brackets(b, m.player, m.where, d, n) && q == Step(m.where, d, i)
  {
    var r := FindCaptures(b, m, d);
    FindCapturesMeaning(b, m, d);
    BracketsUnique(b, m.player, m.where, d);
    if q in r {
      var j :| 0 <= j < |r| && r[j] == q;
      assert 1 <= j + 1 <= |r| && Brackets(b, m.player, m.where, d, |r|) && q == Step(m.where, d, j + 1);
    }
    if exists n: nat, i :: 1 <= i <= n && Brackets(b, m.player, m.where, d, n) && q == Step(m.where, d, i) {
      var n: nat, i :| 1 <= i <= n && Brackets(b, m.player, m.where, d, n) && q == Step(m.where, d, i);
      assert r != [];
      assert n == |r|;
      assert r[i - 1] == q;
    }
  }

  /** The runs joined end to end, in order. */
  function Concat(runs: seq<seq<Position>>): seq<Position>
    decreases |runs|
  {
    if runs == [] then [] else runs[0] + Concat(runs[1..])
  }

  /** The concatenation holds exactly the cells of the runs. */
  lemma {:induction false} ConcatMembers(runs: seq<seq<Position>>)
    ensures forall q :: q in Concat(runs) <==> exists k :: 0 <= k < |runs| && q in runs[k]
    ensures Concat(runs) == [] <==> forall k :: 0 <= k < |runs| ==> runs[k] == []
    decreases |runs|
  {
    if runs != [] {
      ConcatMembers(runs[1..]);
      assert forall k :: 1 <= k < |runs| ==> runs[k] == runs[1..][k - 1];
    }
  }

  /** The captures of each scan direction, in the order of Dirs. */
  function RayCaptures(b: Board, m: Move): (runs: seq<seq<Position>>)
    requires m.where.Valid()
    ensures |runs| == |Dirs()|
    ensures forall k :: 0 <= k < |Dirs()| ==> runs[k] == FindCaptures(b, m, Dirs()[k])
  {
    seq(|Dirs()|, k requires 0 <= k < |Dirs()| => FindCaptures(b, m, Dirs()[k]))
  }

  /** Tries a placement without executing it: refused when the target is
      occupied or when no direction captures anything; otherwise the
      captures of all eight directions, in the order of Dirs. */
  function TryMove(b: Board, m: Move): (r: Result<seq<Position>>)
    requires m.where.Valid()
    ensures Get(b, m.where) != Empty ==> r == Err(Occupied(m, Get(b, m.where)))
    ensures Get(b, m.where) == Empty && r.Err? ==> r.error == NothingCaptured(m)
    ensures r.Ok? ==> |r.value| >= 1
  {
    if Get(b, m.where) != Empty then Err(Occupied(m, Get(b, m.where)))
    else
      var captures := Concat(RayCaptures(b, m));
      if |captures| < 1 then Err(NothingCaptured(m)) else Ok(captures)
  }

  /** tryMove fails exactly when the target is occupied or no direction
      captures; on success it returns the cells the eight rays capture,
      each an on-board capturable piece other than the target. */
  lemma TryMoveMeaning(b: Board, m: Move)
    requires m.where.Valid()
    ensures TryMove(b, m).Err? <==>
      Get(b, m.where) != Empty || forall k :: 0 <= k < |Dirs()| ==> FindCaptures(b, m, Dirs()[k]) == []
    ensures TryMove(b, m).Ok? ==> forall q :: q in TryMove(b, m).value <==>
      exists k :: 0 <= k < |Dirs()| && q in FindCaptures(b, m, Dirs()[k])
    ensures TryMove(b, m).Ok? ==> forall q :: q in TryMove(b, m).value ==>
      q.Valid() && q != m.where && IsCapturable(b, m.player, q)
  {
    ConcatMembers(RayCaptures(b, m));
    forall k | 0 <= k < |Dirs()| {
      FindCapturesMeaning(b, m, Dirs()[k]);
    }
  }
}

=== FILE: geometry.dfy ===
/** Board coordinates, scan directions and the row-major cell order. */
module Geometry {

  /** A coordinate pair. On-board coordinates run from 1 to 8 on each
      axis; any other pair stands for a pass. */
  datatype Position = Position(x: int, y: int) {
    predicate Valid() {
      1 <= x <= 8 && 1 <= y <= 8
    }

    predicate Pass() {
      !Valid()
    }
  }

  /** A scanning offset. */
  datatype Direction = Direction(dx: int, dy: int)

  /** One of the eight non-zero offsets in {-1,0,1} x {-1,0,1}. */
  predicate IsDirection(d: Direction) {
    -1 <= d.dx <= 1 && -1 <= d.dy <= 1 && (d.dx != 0 || d.dy != 0)
  }

  /** The i-th direction of the scan: the 3 x 3 offsets are visited with x
      in the outer loop and y in the inner one, and (0, 0) is skipped. */
  function DirAt(i: int): (d: Direction)
    requires 0 <= i < 8
    ensures IsDirection(d)
  {
    var j := if i < 4 then i else i + 1;
    Direction(j / 3 - 1, j % 3 - 1)
  }

  /** The eight scan directions, in scan order. */
  function Dirs(): (ds: seq<Direction>)
    ensures |ds| == 8 && forall i :: 0 <= i < 8 ==> ds[i] == DirAt(i)
  {
    seq(8, i requires 0 <= i < 8 => DirAt(i))
  }

  /** Dirs holds each non-zero offset exactly once, ordered by x and then y. */
  lemma DirsAreTheNeighbours()
    ensures Dirs() == [
      Direction(-1, -1), Direction(-1, 0), Direction(-1, 1),
      Direction(0, -1), Direction(0, 1),
      Direction(1, -1), Direction(1, 0), Direction(1, 1)]
    ensures forall d :: d in Dirs() <==> IsDirection(d)
    ensures forall i, j :: 0 <= i < j < |Dirs()| ==>
      Dirs()[i].dx < Dirs()[j].dx || (Dirs()[i].dx == Dirs()[j].dx && Dirs()[i].dy < Dirs()[j].dy)
  {
  }

  function Translate(p: Position, d: Direction): Position {
    Position(p.x + d.dx, p.y + d.dy)
  }

  /** The position i steps from p along d. */
  function Step(p: Position, d: Direction, i: int): Position {
    Position(p.x + i * d.dx, p.y + i * d.dy)
  }

  lemma StepShift(p: Position, d: Direction, i: int)
    ensures Step(Translate(p, d), d, i) == Step(p, d, i + 1)
    ensures Step(p, d, 1) == Translate(p, d)
  {
    assert (i + 1) * d.dx == i * d.dx + d.dx;
    assert (i + 1) * d.dy == i * d.dy + d.dy;
  }

  /** Distance to the edge along one axis when moving by dc. */
  function Reach(c: int, dc: int): nat
    requires 1 <= c <= 8
  {
    if dc > 0 then 8 - c else if dc < 0 then c - 1 else 0
  }

  /** A measure that strictly shrinks with every on-board step along d. */
  function Span(p: Position, d: Direction): nat
    requires p.Valid()
  {
    Reach(p.x, d.dx) + Reach(p.y, d.dy)
  }

  lemma SpanShrinks(p: Position, d: Direction)
    requires p.Valid() && IsDirection(d) && Translate(p, d).Valid()
    ensures Span(Translate(p, d), d) < Span(p, d)
  {
  }

  /** Row-major rank of a position: y selects the row, x the column. */
  function Index(p: Position): int {
    (p.y - 1) * 8 + (p.x - 1)
  }

  /** The k-th cell of a row-major scan (y outer, x inner). */
  function CellAt(k: int): (p: Position)
    requires 0 <= k < 64
    ensures p.Valid() && Index(p) == k
  {
    Position(k % 8 + 1, k / 8 + 1)
  }

  /** Index and CellAt are inverse: each on-board position has one rank. */
  lemma CellAtUnique(k: int)
    requires 0 <= k < 64
    ensures forall p: Position :: p.Valid() && Index(p) == k ==> p == CellAt(k)
  {
    forall p: Position | p.Valid() && Index(p) == k ensures p == CellAt(k) {
      DivModUnique(k, p.y - 1, p.x - 1);
    }
  }

  /** Euclidean division by 8 has a unique quotient and remainder. */
  lemma DivModUnique(k: int, q: int, r: int)
    requires 0 <= r < 8 && k == q * 8 + r
    ensures k / 8 == q && k % 8 == r
  {
  }
}

=== FILE: heuristics.dfy ===
/** One-ply move selection (go/othello.go: Evaluate and the three
    EvaluateFrom heuristics). */
module Heuristics {
  import opened Pieces
  import opened Geometry
  import opened Boards
  import opened Captures
  import opened Moves

  /** Every move has an on-board target; the heuristics index the board or
      the weight table with it. */
  predicate AllOnBoard(moves: seq<Move>) {
    forall i :: 0 <= i < |moves| ==> moves[i].where.Valid()
  }

  /** k is the first position of the least value of s. */
  predicate IsFirstMin(s: seq<int>, k: int) {
    0 <= k < |s|
    && (forall j :: 0 <= j < k ==> s[k] < s[j])
    && (forall j :: k <= j < |s| ==> s[k] <= s[j])
  }

  /** k is the first position of the greatest value of s. */
  predicate IsFirstMax(s: seq<int>, k: int) {
    0 <= k < |s|
    && (forall j :: 0 <= j < k ==> s[j] < s[k])
    && (forall j :: k <= j < |s| ==> s[j] <= s[k])
  }

  /** What a strict-less-than scan with a running minimum seeded at `seed`
      returns: the first move of least score when some score is below the
      seed, and the zero move otherwise. */
  predicate PicksFirstMin(moves: seq<Move>, scores: seq<int>, seed: int, best: Move)
    requires |moves| == |scores|
  {
    if exists j :: 0 <= j < |scores| && scores[j] < seed
    then exists k :: 0 <= k < |scores| && IsFirstMin(scores, k) && best == moves[k]
    else best == NoMove
  }

  /** The strict-greater-than counterpart of PicksFirstMin. */
  predicate PicksFirstMax(moves: seq<Move>, scores: seq<int>, seed: int, best: Move)
    requires |moves| == |scores|
  {
    if exists j :: 0 <= j < |scores| && seed < scores[j]
    then exists k :: 0 <= k < |scores| && IsFirstMax(scores, k) && best == moves[k]
    else best == NoMove
  }

  // ---------------------------------------------------------------------
  // Scores

  /** The board after trying m on a copy: changed by m when tryMove accepts
      it, unchanged otherwise. Next is never changed. */
  function After(b: Board, m: Move): (r: Board)
    requires m.where.Valid()
    ensures r.next == b.next
  {
    match RealMove(b, m)
    case Ok(moved) => moved
    case Err(_) => b
  }

  /** The number of legal placements on the board after m, for the colour
      b.next, which m does not change. */
  function Mobility(b: Board, m: Move): (n: nat)
    requires m.where.Valid()
    ensures n <= 64
  {
    |ValidMoves(After(b, m))|
  }

  /** Because the copy's Next is not flipped, Mobility counts the legal
      placements of the mover's own colour on the board after m. */
  lemma MobilityCountsMoversMoves(b: Board, m: Move)
    requires m.where.Valid()
    ensures forall x :: x in ValidMoves(After(b, m)) <==> IsLegal(After(b, m), x) && x.player == b.next
  {
    ValidMovesExact(After(b, m));
  }

  /** The mobility score of each move, in order. */
  function MobilityScores(b: Board, moves: seq<Move>): (s: seq<int>)
    requires AllOnBoard(moves)
    ensures |s| == |moves|
    ensures forall i :: 0 <= i < |s| ==> 0 <= s[i] <= 64
  {
    seq(|moves|, i requires 0 <= i < |moves| => Mobility(b, moves[i]))
  }

  /** The positional weights of one corner quadrant; the other quadrants
      mirror it. */
  const Quadrant: seq<seq<int>> := [
    [68, -12, 53, -8],
    [-12, -62, -33, -7],
    [53, -33, 26, 8],
    [-8, -7, 8, -18]
  ]

  /** Folds a 0-based coordinate onto the quadrant: c for c < 4, 7 - c otherwise. */
  function Fold(c: int): int {
    if c >= 4 then 7 - c else c
  }

  /** The positional weight of an on-board target. */
  function Weight(p: Position): (w: int)
    requires p.Valid()
    ensures -62 <= w <= 68
  {
    Quadrant[Fold(p.x - 1)][Fold(p.y - 1)]
  }

  /** Weights do not change under a mirror in either axis or under
      swapping x and y: the table has the board's eight symmetries. */
  lemma WeightSymmetry(p: Position)
    requires p.Valid()
    ensures Weight(Position(9 - p.x, p.y)) == Weight(p)
    ensures Weight(Position(p.x, 9 - p.y)) == Weight(p)
    ensures Weight(Position(p.y, p.x)) == Weight(p)
  {
  }

  /** The positional weight of each move's target, in order. */
  function WeightScores(moves: seq<Move>): (s: seq<int>)
    requires AllOnBoard(moves)
    ensures |s| == |moves|
    ensures forall i :: 0 <= i < |s| ==> -62 <= s[i] <= 68
  {
    seq(|moves|, i requires 0 <= i < |moves| => Weight(moves[i].where))
  }

  /** The number of pieces a move captures, or 0 when tryMove refuses it. */
  function CaptureCount(b: Board, m: Move): (n: nat)
    requires m.where.Valid()
    ensures n > 0 <==> TryMove(b, m).Ok?
  {
    match TryMove(b, m)
    case Ok(captures) => |captures|
    case Err(_) => 0
  }

  /** The capture count of each move, in order. */
  function CaptureScores(b: Board, moves: seq<Move>): (s: seq<int>)
    requires AllOnBoard(moves)
    ensures |s| == |moves|
    ensures forall i :: 0 <= i < |s| ==> 0 <= s[i]
    ensures forall i :: 0 <= i < |s| ==> (s[i] > 0 <==> TryMove(b, moves[i]).Ok?)
  {
    seq(|moves|, i requires 0 <= i < |moves| => CaptureCount(b, moves[i]))
  }

  // ---------------------------------------------------------------------
  // Heuristics

  /** The scan every heuristic performs: walk the moves in order, keeping
      the move whose score is strictly below the running minimum, which
      starts at `seed`; the result starts as the zero move. */
  method ScanForMin(moves: seq<Move>, scores: seq<int>, seed: int) returns (best: Move)
    requires |moves| == |scores|
    ensures PicksFirstMin(moves, scores, seed, best)
    ensures |scores| > 0 && (forall j :: 0 <= j < |scores| ==> scores[j] < seed) ==> best in moves
  {
    best := NoMove;
    var min := seed;
    ghost var k := -1;
    for i := 0 to |moves|
      invariant k == -1 ==> best == NoMove && min == seed && forall j :: 0 <= j < i ==> seed <= scores[j]
      invariant k != -1 ==> 0 <= k < i && best == moves[k] && min == scores[k] && min < seed
      invariant k != -1 ==> forall j :: 0 <= j < k ==> scores[k] < scores[j]
      invariant k != -1 ==> forall j :: k <= j < i ==> scores[k] <= scores[j]
    {
      if scores[i] < min {
        best := moves[i];
        min := scores[i];
        k := i;
      }
    }
    if k != -1 {
      assert IsFirstMin(scores, k);
    } else if |scores| > 0 {
      assert seed <= scores[0];
    }
  }

  /** The strict-greater-than counterpart of ScanForMin. */
  method ScanForMax(moves: seq<Move>, scores: seq<int>, seed: int) returns (best: Move)
    requires |moves| == |scores|
    ensures PicksFirstMax(moves, scores, seed, best)
    ensures |scores| > 0 && (forall j :: 0 <= j < |scores| ==> seed < scores[j]) ==> best in moves
  {
    best := NoMove;
    var max := seed;
    ghost var k := -1;
    for i := 0 to |moves|
      invariant k == -1 ==> best == NoMove && max == seed && forall j :: 0 <= j < i ==> scores[j] <= seed
      invariant k != -1 ==> 0 <= k < i && best == moves[k] && max == scores[k] && seed < max
      invariant k != -1 ==> forall j :: 0 <= j < k ==> scores[j] < scores[k]
      invariant k != -1 ==> forall j :: k <= j < i ==> scores[j] <= scores[k]
    {
      if scores[i] > max {
        best := moves[i];
        max := scores[i];
        k := i;
      }
    }
    if k != -1 {
      assert IsFirstMax(scores, k);
    } else if |scores| > 0 {
      assert scores[0] <= seed;
    }
  }

  /** Opening heuristic: the first move after which the fewest placements
      remain for the colour b.next, which is the mover's own colour because
      the copy's Next is not flipped. No count reaches the seed 100, so a
      non-empty list always yields one of its moves. */
  method EvaluateFromValidMoves(b: Board, moves: seq<Move>) returns (best: Move)
    requires AllOnBoard(moves)
    ensures PicksFirstMin(moves, MobilityScores(b, moves), 100, best)
    ensures |moves| > 0 ==> best in moves
  {
    best := ScanForMin(moves, MobilityScores(b, moves), 100);
  }

  /** Midgame heuristic: the first move whose target has the greatest
      positional weight. Every weight is above the seed -100, so a
      non-empty list always yields one of its moves. */
  method EvaluateFromBoardStatus(b: Board, moves: seq<Move>) returns (best: Move)
    requires AllOnBoard(moves)
    ensures PicksFirstMax(moves, WeightScores(moves), -100, best)
    ensures |moves| > 0 ==> best in moves
  {
    best := ScanForMax(moves, WeightScores(moves), -100);
  }

  /** Endgame heuristic: the first move that captures the most pieces. A
      legal move captures at least one piece and so beats the seed 0; when
      no move captures, the zero move comes back. */
  method EvaluateFromCaptures(b: Board, moves: seq<Move>) returns (best: Move)
    requires AllOnBoard(moves)
    ensures PicksFirstMax(moves, CaptureScores(b, moves), 0, best)
  {
    best := ScanForMax(moves, CaptureScores(b, moves), 0);
  }

  /** Given a non-empty list of legal moves, the capture heuristic returns
      one of them, since each captures at least one piece. */
  lemma CapturesPickALegalMove(b: Board, moves: seq<Move>, best: Move)
    requires AllOnBoard(moves) && |moves| > 0
    requires forall i :: 0 <= i < |moves| ==> TryMove(b, moves[i]).Ok?
    requires PicksFirstMax(moves, CaptureScores(b, moves), 0, best)
    ensures best in moves
  {
    var scores := CaptureScores(b, moves);
    assert 0 < scores[0];
  }

  /** Chooses a move by game progress: mobility below 30 pieces on the
      board, position weight from 30 up to 54, captures from 55 on. The
      piece count is a parameter. */
  method Evaluate(b: Board, moves: seq<Move>, count: int) returns (best: Move)
    requires AllOnBoard(moves)
    ensures if count < 30 then PicksFirstMin(moves, MobilityScores(b, moves), 100, best)
      else if count < 55 then PicksFirstMax(moves, WeightScores(moves), -100, best)
      else PicksFirstMax(moves, CaptureScores(b, moves), 0, best)
  {
    if count < 30 {
      best := EvaluateFromValidMoves(b, moves);
    } else if count < 55 {
      best := EvaluateFromBoardStatus(b, moves);
    } else {
      best := EvaluateFromCaptures(b, moves);
    }
  }
}

=== FILE: moves.dfy ===
/** Legal-move enumeration and move execution
    (go/othello.go: ValidMoves, realMove, Exec). */
module Moves {
  import opened Pieces
  import opened Geometry
  import opened Boards
  import opened Captures

  /** A placement by the player to move that tryMove accepts. */
  predicate IsLegal(b: Board, m: Move) {
    m.where.Valid() && m.player == b.next && TryMove(b, m).Ok?
  }

  /** Moves in strictly increasing row-major order of their targets. */
  predicate RowMajor(ms: seq<Move>) {
    forall i, j :: 0 <= i < j < |ms| ==> Index(ms[i].where) < Index(ms[j].where)
  }

  /** The moves of ms that tryMove accepts, in the order of ms. */
  function Accepted(b: Board, ms: seq<Move>): (r: seq<Move>)
    requires forall m :: m in ms ==> m.where.Valid()
    ensures |r| <= |ms|
    decreases |ms|
  {
    if ms == [] then []
    else
      var head := if TryMove(b, ms[0]).Ok? then [ms[0]] else [];
      head + Accepted(b, ms[1..])
  }

  /** The filter keeps exactly the candidates tryMove accepts. */
  lemma {:induction false} AcceptedMembers(b: Board, ms: seq<Move>)
    requires forall m :: m in ms ==> m.where.Valid()
    ensures forall m :: m in Accepted(b, ms) <==> m in ms && TryMove(b, m).Ok?
    decreases |ms|
  {
    if ms != [] {
      AcceptedMembers(b, ms[1..]);
      assert forall m :: m in ms <==> m == ms[0] || m in ms[1..];
    }
  }

  /** The filter keeps the order it was given. */
  lemma {:induction false} AcceptedOrder(b: Board, ms: seq<Move>)
    requires forall m :: m in ms ==> m.where.Valid()
    requires RowMajor(ms)
    ensures RowMajor(Accepted(b, ms))
    decreases |ms|
  {
    if ms != [] {
      var rest := Accepted(b, ms[1..]);
      forall i, j | 0 <= i < j < |ms[1..]|
        ensures Index(ms[1..][i].where) < Index(ms[1..][j].where)
      {
        assert ms[1..][i] == ms[i + 1] && ms[1..][j] == ms[j + 1];
      }
      AcceptedOrder(b, ms[1..]);
      AcceptedMembers(b, ms[1..]);
      forall i | 0 <= i < |rest| ensures Index(ms[0].where) < Index(rest[i].where) {
        assert rest[i] in ms[1..];
        var j :| 0 <= j < |ms[1..]| && ms[1..][j] == rest[i];
        assert ms[j + 1] == rest[i];
      }
    }
  }

  /** One candidate per cell, for the player to move, in row-major order. */
  function Candidates(b: Board): (r: seq<Move>)
    ensures |r| == 64
    ensures forall k :: 0 <= k < 64 ==> r[k] == Move(CellAt(k), b.next)
  {
    seq(64, k requires 0 <= k < 64 => Move(CellAt(k), b.next))
  }

  /** Every legal placement for the player to move, each tagged with that
      player, in row-major order (y outer, x inner). */
  function ValidMoves(b: Board): (r: seq<Move>)
    ensures |r| <= 64
  {
    Accepted(b, Candidates(b))
  }

  /** The enumeration holds exactly the legal placements of the player to
      move, in strictly increasing row-major order. */
  lemma ValidMovesExact(b: Board)
    ensures forall m :: m in ValidMoves(b) <==> IsLegal(b, m)
    ensures RowMajor(ValidMoves(b))
  {
    var c := Candidates(b);
    AcceptedMembers(b, c);
    AcceptedOrder(b, c);
    forall m | IsLegal(b, m) ensures m in c {
      var k := Index(m.where);
      CellAtUnique(k);
      assert c[k] == m;
    }
  }

  /** A board with no pieces offers no move, whoever is to play. */
  lemma EmptyBoardHasNoMoves(b: Board)
    requires forall p: Position :: p.Valid() ==> Get(b, p) == Empty
    ensures ValidMoves(b) == []
  {
    if ValidMoves(b) != [] {
      var m := ValidMoves(b)[0];
      ValidMovesExact(b);
      assert IsLegal(b, m);
      NothingCapturesOnEmptyBoard(b, m);
    }
  }

  /** On a board with no pieces every placement is refused: no ray has a
      piece to capture. */
  lemma NothingCapturesOnEmptyBoard(b: Board, m: Move)
    requires forall p: Position :: p.Valid() ==> Get(b, p) == Empty
    requires m.where.Valid()
    ensures TryMove(b, m) == Err(NothingCaptured(m))
  {
    TryMoveMeaning(b, m);
  }

  /** Executes a placement that is not a pass: on success the captured
      cells and the target take the mover's piece; Next is left alone. */
  function RealMove(b: Board, m: Move): (r: Result<Board>)
    requires m.where.Valid()
    ensures r.Err? <==> TryMove(b, m).Err?
    ensures r.Err? ==> r.error == TryMove(b, m).error
    ensures r.Ok? ==> r.value.next == b.next
  {
    TryMoveMeaning(b, m);
    match TryMove(b, m)
    case Err(e) => Err(e)
    case Ok(captures) => Ok(Paint(b, captures + [m.where], m.player))
  }

  /** A successful placement gives the mover's piece to exactly the target
      and the captured cells; every other cell keeps its value. */
  lemma RealMoveFrame(b: Board, m: Move)
    requires m.where.Valid() && RealMove(b, m).Ok?
    ensures forall p: Position :: p.Valid() ==>
      Get(RealMove(b, m).value, p) ==
        if p == m.where || p in TryMove(b, m).value then m.player else Get(b, p)
  {
  }

  /** Runs a move. A placement is executed by RealMove; a pass is accepted
      only when the player to move has no legal placement. On success the
      turn passes to the opposite colour. */
  function Exec(b: Board, m: Move): (r: Result<Board>)
    ensures r.Ok? ==> r.value.next == Opposite(b.next)
    ensures m.where.Pass() ==> (r.Err? <==> ValidMoves(b) != [])
    ensures m.where.Pass() && r.Err? ==> r.error == PassWithMovesAvailable(m, ValidMoves(b))
    ensures m.where.Pass() && r.Ok? ==> r.value.grid == b.grid
  {
    if !m.where.Pass() then
      match RealMove(b, m)
      case Err(e) => Err(e)
      case Ok(after) => Ok(after.(next := Opposite(after.next)))
    else
      var valid := ValidMoves(b);
      if |valid| > 0 then Err(PassWithMovesAvailable(m, valid))
      else Ok(b.(next := Opposite(b.next)))
  }

  /** A placement fails exactly when its target is occupied or no ray
      captures, and then reports tryMove's error; when it succeeds, exactly
      the captured cells and the target take the mover's piece and every
      other cell keeps its value. */
  lemma ExecPlacement(b: Board, m: Move)
    requires m.where.Valid()
    ensures Exec(b, m).Err? <==>
      Get(b, m.where) != Empty || forall k :: 0 <= k < |Dirs()| ==> FindCaptures(b, m, Dirs()[k]) == []
    ensures Exec(b, m).Err? ==> Exec(b, m).error == TryMove(b, m).error
    ensures Exec(b, m).Ok? ==> forall p: Position :: p.Valid() ==>
      Get(Exec(b, m).value, p) == if p == m.where || p in TryMove(b, m).value then m.player else Get(b, p)
  {
    TryMoveMeaning(b, m);
    if RealMove(b, m).Ok? {
      RealMoveFrame(b, m);
    }
  }

  /** Every enumerated move executes, flipping exactly its captures. */
  lemma ValidMovesExecute(b: Board, m: Move)
    requires m in ValidMoves(b)
    ensures Exec(b, m).Ok?
    ensures Exec(b, m).value.next == Opposite(b.next)
    ensures forall p: Position :: p.Valid() ==>
      Get(Exec(b, m).value, p) == if p == m.where || p in TryMove(b, m).value then b.next else Get(b, p)
  {
    ValidMovesExact(b);
    ExecPlacement(b, m);
  }
}

=== FILE: pieces.dfy ===
/** Cell contents and the opposite-player mapping (go/othello.go, type Piece). */
module Pieces {

  /** A cell value. The source stores it as an 8-bit integer, so a board
      read from outside may hold any value of that range; only 0, 1 and 2
      are named. */
  newtype Piece = x: int | -128 <= x < 128

  const Empty: Piece := 0
  const Black: Piece := 1
  const White: Piece := 2

  /** One of the two players. */
  predicate IsPlayer(p: Piece) {
    p == Black || p == White
  }

  /** The other player; every value that is not a player maps to Empty. */
  function Opposite(p: Piece): (q: Piece)
    ensures IsPlayer(p) <==> IsPlayer(q)
    ensures IsPlayer(p) ==> q != p
    ensures !IsPlayer(p) ==> q == Empty
  {
    if p == White then Black
    else if p == Black then White
    else Empty
  }

  /** Opposite is its own inverse on the players, and applied twice sends
      every other value to Empty. */
  lemma OppositeSwapsPlayers(p: Piece)
    ensures Opposite(Opposite(p)) == if IsPlayer(p) then p else Empty
  {
  }
}
